=== FILE: README.md ===
# InventoryWalk filtering core in Dafny

InventoryWalk is a browser page that lists vehicle records from `data.json`
as cards. A navbar of links filters the cards on two facets: the record's
`Status` and its `Vehicle Status`. Each link is labelled with the number of
records carrying that value. Each card also suggests items from
`inventory.json` whose year and price are close to the record's.

This project models the data logic of `script.js` as pure Dafny functions
and proves properties of it:

- `StatusSort`: `sortDataByStatus`, a stable sort of the records by the
  index of their vehicle status in the fixed order "In Inventory",
  "Sold or Traded", "Never in Inventory". An unlisted status has index -1,
  so it sorts first.
- `FilterCounts`: `calculateFilterCounts`, the `counts[filter] || 0` lookup
  of the navbar, and the fact that the counts add up to the `All` count.
- `Facets`: the status filter list of line 33, which is "All" followed by
  the distinct statuses in first-occurrence order. It is built from
  `data`, which the in-place `sort` has already reordered. The list also
  holds the fixed vehicle-status filters.
- `Filters`: the conjunctive predicate of `applyFilters` and the
  disjunctive one of `filterCardsByStatus`, with its "Sold"/"Traded" alias.
- `Matching`: `findMatchingInventory`. String prices are read with
  `replace(/[^\d.]/g, "")` and `parseFloat`; the year must be within 1 and
  the price within 3000.
- `Navbar`:
  - the `createFilterLink` label `"<filter> (<count>)"` and its read-back;
  - the click handler;
  - the `highlightSelectedFilters` test as written (a substring test);
  - the corrected selection test (filter equality).
- `App`: the data flow of `fetchData`, `applyFilters` and `displayCards`,
  joined end to end. The counts are computed once, when the data is
  loaded, and do not depend on the other facet's filter. So a link's count
  equals the number of cards its click shows when the click is made from
  the initial filters (the other facet at "All"). The clicked link is
  highlighted.
- `Seqs`, `Digits`, `Wrappers`, `Records`: the JavaScript built-ins the
  script relies on (`filter`, `indexOf`, `new Set`, `includes`, number
  rendering) and the two JSON record shapes.

JavaScript values are modelled as follows:

- A missing map entry and the `undefined` it yields are both "absent".
- JavaScript truthiness of a count means "present and not 0".
- `NaN` is `None`.
- Numbers parsed from price strings are exact decimals (`Dec`), not doubles.

## Model

| member | source | states |
|---|---|---|
| Seqs.Filter | script.js:128-135 | `filter` keeps exactly the elements satisfying the predicate, each as often as in the input, in input order |
| Seqs.IndexOf | script.js:58-59 | `indexOf` is -1 exactly when the value is absent, otherwise the first index holding it |
| Seqs.Distinct | script.js:33 | `new Set(...)` holds every value of the list once, in order of first occurrence |
| Seqs.Contains | script.js:150-152 | definition: `includes` holds when the needle occurs as a contiguous run of the text at some index; the empty string occurs in every text |
| Digits.NatToString | script.js:180 | a template literal prints a count as a non-empty digit string without a leading zero that reads back as the count |
| StatusSort.Rank | script.js:55-59 | the sort key is 0, 1 or 2 for the three listed vehicle statuses and -1 for any other |
| StatusSort.Insert | script.js:56-60 | inserting into a sorted list keeps it sorted and adds exactly one element |
| StatusSort.SortBy | script.js:56-60 | the sort returns a permutation of its input, ordered by key |
| StatusSort.SortByStatus | script.js:53-61 | sorted data is a permutation of the fetched data, in non-decreasing vehicle-status index, with unlisted statuses ahead of every listed one |
| StatusSort.SortSortedIsIdentity | script.js:56-60 | the stable sort leaves already ordered data unchanged |
| StatusSort.SortIdempotent | script.js:53-61 | sorting twice equals sorting once |
| FilterCounts.Bump | script.js:114-118 | definition: a value whose entry is truthy (present and not 0) gains one; any other value is set to 1 |
| FilterCounts.Tally | script.js:112-119 | after the loop, a key with a positive start count gains its occurrences, every other key seen holds exactly its occurrences, and unseen keys keep their value |
| FilterCounts.CalculateFilterCounts | script.js:110-121 | `All` is the record count plus the records literally valued "All"; any other key is present iff some record carries it, and then holds the number of such records |
| FilterCounts.DisplayCount | script.js:75 | definition: `counts[filter] \|\| 0` is the entry when present and non-zero, otherwise 0; FilterCounts.ShownCount states its value |
| FilterCounts.ShownCount | script.js:75 | a link shows the number of records with its value, 0 for a value nobody carries, and the `All` count for "All" |
| FilterCounts.SumOccDistinct | script.js:112-119 | the occurrence counts of the distinct values add up to the number of values |
| FilterCounts.CountsSumToAll | script.js:110-121 | when no record's value is "All", the counts of the distinct values sum to the `All` count |
| Facets.StatusFilters | script.js:33 | the status list is "All" then every status carried by some record, once each, in order of first occurrence |
| Facets.VehicleStatusFiltersDistinct | script.js:34-39 | the fixed vehicle-status list holds no value twice |
| Facets.StatusFiltersNoDuplicates | script.js:33 | when no record's status is literally "All", the status list holds no value twice |
| Filters.Matches | script.js:129-134 | definition: a record matches when each facet is at "All" or equals the record's field |
| Filters.ApplyFilters | script.js:127-135 | the shown records are exactly those matching both facets, with multiplicity and in order |
| Filters.AllShowsEverything | script.js:47 | with both filters at "All", every record is shown in its order |
| Filters.FiltersCompose | script.js:128-135 | filtering on both facets equals filtering on status, then on vehicle status |
| Filters.FacetFilterCount | script.js:127-135 | filtering one facet on a value shows as many records as carry that value |
| Filters.FilterCardsByStatus | script.js:218-229 | the kept records are exactly those satisfying one of the four cases, with multiplicity and in order |
| Filters.CardMatch | script.js:221-228 | definition: "All", the record's status, its vehicle status, or "Sold or Traded" for a "Sold" or "Traded" vehicle status |
| Filters.CardKeptIff | script.js:220-228 | a record is kept iff it is in the data and "All", its status, its vehicle status, or the Sold/Traded alias applies |
| Filters.ConjunctiveWithinDisjunctive | script.js:220-228 | whatever one facet of `applyFilters` shows for a value, `filterCardsByStatus` shows for it too |
| Filters.SoldAliasDiffers | script.js:226-227 | a "Sold" record is kept by the alias yet hidden by the "Sold or Traded" vehicle-status facet |
| Filters.CardsAllShowsEverything | script.js:223 | "All" keeps every record |
| Matching.StripPrice | script.js:196 | the regex leaves only digits and dots, in their original order |
| Matching.StripKeeps | script.js:196 | a character survives the regex iff it occurs in the input and is a digit or a dot |
| Matching.StripConcat | script.js:196 | stripping a concatenation strips each part |
| Matching.StripDollarThousands | script.js:196 | the dollar sign and thousands comma around a digit run are removed |
| Matching.StripPriceChars | script.js:196 | a string of digits and dots passes through unchanged |
| Matching.ParseFloat | script.js:196 | `parseFloat` is NaN exactly for the empty string or a leading dot not followed by a digit |
| Matching.ParseDecimal | script.js:196 | "w.f", alone or followed by a second dot and anything after it, parses as w + f/10^(number of digits of f) |
| Matching.ParseWhole | script.js:196 | a digit string parses as its whole value |
| Matching.StripFormatted | script.js:196 | "$t,h.c" strips to "th.c" |
| Matching.FormattedPrice | script.js:194-197 | a price string "$t,h.c" normalises to the exact value th.c |
| Matching.DigitOnlyPrice | script.js:194-197 | a price whose stripped form is all digits normalises to that whole number |
| Matching.NoDigitsIsNaN | script.js:194-197 | a price string without digits normalises to NaN |
| Matching.NormalizePrice | script.js:194-201 | definition: a number field is taken as it is; a string is stripped and parsed, with `None` for NaN |
| Matching.WithinPrice | script.js:202-204 | definition: the price difference, over the common denominator of the two decimals, lies within -3000 and 3000 |
| Matching.WithinPriceExact | script.js:202-204 | the price test holds exactly when the real values of the two prices differ by at most 3000, whatever their numbers of decimals |
| Matching.Near | script.js:191-204 | definition: years at most 1 apart, both prices not NaN, and the prices within 3000 |
| Matching.FindMatchingInventory | script.js:189-205 | every suggested item is within a year and 3000 in price, with prices compared as exact decimals; exactly the matching items are kept, in inventory order |
| Matching.NaNMatchesNothing | script.js:202-204 | a record whose price is NaN gets no suggestion |
| Matching.NearSymmetric | script.js:191-204 | the matching relation is symmetric between item and record |
| Matching.WholePrices | script.js:202-204 | for whole prices the exact comparison is the plain absolute difference at most 3000 |
| Matching.BoundsInclusive | script.js:204 | both bounds are inclusive: 1 year and 3000 apart match, 2 years or 3001 do not |
| Navbar.ParseIntRoundTrip | script.js:93 | a rendered count reads back as the same integer |
| Navbar.Label | script.js:93 | definition: the link text is the filter, a space, and the count in parentheses; Navbar.LabelRoundTrip reads it back |
| Navbar.LabelRoundTrip | script.js:93 | a link text reads back as its filter and count |
| Navbar.LabelInjective | script.js:93 | different (filter, count) pairs give different link texts |
| Navbar.CreateFilterLink | script.js:91-105 | a link carries its type and filter, and its text reads back as filter and count |
| Navbar.FacetLinks | script.js:74-77 | one link per filter, in order, each showing `counts[filter] \|\| 0` |
| Navbar.GenerateNavbar | script.js:63-88 | the status links, then the vehicle-status links, each with its type, filter and displayed count |
| Navbar.Click | script.js:96-103 | a click sets the current filter of the link's facet and keeps the other facet's |
| Navbar.HighlightedAsWritten | script.js:148-153 | definition: a link is highlighted when its text contains the current filter of its own facet as a substring |
| Navbar.CurrentLinkHighlighted | script.js:148-153 | the link of the current filter is highlighted |
| Navbar.ClickedLinkHighlighted | script.js:96-103 | after its click, a link is highlighted |
| Navbar.LongerFilterAlsoHighlighted | script.js:148-153 | the link of any longer filter value ending in the current one (e.g. "Certified Used" for "Used") is highlighted too |
| Navbar.CountTextAlsoHighlighted | script.js:148-153 | a current filter spelling a number highlights every link of that count |
| Navbar.SelectedIsHighlighted | script.js:148-153 | every link the corrected test selects is highlighted as written |
| Navbar.SelectionExclusive | script.js:148-153 | with duplicate-free filter lists, after any click the corrected test selects exactly the clicked link among the links of its facet |
| Navbar.NavbarClickHighlights | script.js:148-153 | every navbar link is highlighted after its own click |
| App.FetchData | script.js:21-45 | the stored data is a permutation of the fetched data sorted by vehicle-status index, with one link per status and vehicle-status filter |
| App.ShownCards | script.js:127-135 | the cards shown are the stored records matching both current filters, each as often as stored, in the stored order |
| App.DisplayCards | script.js:162-176 | one card per record, in order; a card's suggestions are exactly the inventory items matching its record, each as often as in the inventory, in inventory order |
| App.Badge | script.js:177-182 | a badge appears iff there is a suggestion, and its text reads as the number of suggestions, which by App.DisplayCards is the number of matching inventory items |
| App.InitialViewShowsAll | script.js:47 | on load, every fetched record is shown |
| App.CountIsShownRecords | script.js:75 | the count displayed for a value other than "All" equals the number of records filtering on it shows |
| App.LinkCountIsCardCount | script.js:63-88 | clicked from the initial filters (the other facet at "All"), every page link other than "All" shows the number of cards its click displays, 0 for an absent vehicle status |
| App.AllLinkCount | script.js:111 | the status "All" link shows the record count plus the records with status "All"; clicked from the initial filters (the other facet at "All"), it shows every record |
| App.ClickedPageLinkHighlighted | script.js:148-153 | any page link is highlighted after its click |
| App.StatusFiltersDistinct | script.js:33 | without a status literally "All", the status list has no duplicate |
| App.ClickSelectsOnlyClicked | script.js:148-153 | on the page, after any click, the corrected test selects exactly the clicked link among the links of its facet |

## Left out

- DOM work, `fetch`, `async`, `console.error` and the `try`/`catch`: loading is a parameter (`raw`, `inventory`), and failures are not modelled.
- `fetchInventoryData`, `displayModal`, `applyStatusColor` and the card's key/value rendering only display data.
- The top-level `calculateFilterCounts(globalData, ...)` calls at lines 124-125 run on the empty initial array; their results are never used.
- `filterCardsByStatus` is modelled but is called nowhere in the script. Its `selected` class handling on the element passed in is DOM-only.
- The count map is a Dafny `map`. Keys inherited from `Object.prototype` (such as "constructor"), whose lookups are truthy in JavaScript, are not modelled.
- Record fields other than `Status`, `Vehicle Status`, `Year` and `Price` are only displayed. `Year` is an integer; string years and their coercion are not modelled.
- Matching.NormalizePrice: numeric prices are integers. Fractional JSON numbers, `null`, booleans and other types are not modelled.
- Matching.ParseFloat: returns an exact decimal. Double rounding and overflow to `Infinity` are not modelled.
- Matching.FindMatchingInventory: the price difference is compared exactly, not in doubles, so decimal prices at the 3000 bound can match in the model where the program rejects them: an item priced "$4,099.02" and a record priced "$1,099.02" of the same year match here, while 4099.02 - 1099.02 evaluates to 3000.0000000000005 in doubles.
- StatusSort.SortByStatus: assumes the stable sort that ECMAScript 2019 requires of `Array.prototype.sort`. The comparator is a consistent integer difference, so the order is determined.
- The substring test of `highlightSelectedFilters` matches on `innerText`. The model takes the link text to be the label `createFilterLink` wrote.
- The status "All" quirk is stated, not corrected: a record whose status is literally "All" makes "All" appear twice in the status list and raises the `All` count (App.AllLinkCount).

## Findings

| source | as written | input that shows it | evidently intended | confidence | as-written member | corrected member |
|---|---|---|---|---|---|---|
| script.js:148-153 | a link gets the `selected` class when its text contains the current filter of its type as a substring | statuses "Used" and "Certified Used" with the status filter "Used": both links are highlighted. A status filter "3" highlights every status link whose count is 3 | only the link whose filter equals the current filter is highlighted | medium, not executed | Navbar.LongerFilterAlsoHighlighted | Navbar.SelectionExclusive |

=== FILE: app.dfy ===
/** The data flow of the page: `fetchData` sorts the records and derives the
    facet lists, counts and navbar links; `applyFilters` decides the cards
    shown for the current filters; `displayCards` attaches each card's
    inventory suggestions. */
module App {

  import opened Wrappers
  import opened Seqs
  import opened Digits
  import opened Records
  import StatusSort
  import FilterCounts
  import Facets
  import Filters
  import Matching
  import opened Navbar

  /** What `fetchData` leaves behind: the sorted `globalData`, the two count
      maps, the status filter list and the navbar links. */
  datatype Page = Page(
    globalData: seq<Record>,
    statusCounts: map<string, int>,
    vehicleStatusCounts: map<string, int>,
    statusFilters: seq<string>,
    links: seq<Link>)

  /** The processing `fetchData` does on the fetched array `raw`. The array
      is sorted in place, so the status list, built from `data`, lists the
      statuses in their order of first occurrence in the SORTED array. */
  function FetchData(raw: seq<Record>): (page: Page)
    ensures multiset(page.globalData) == multiset(raw)
    ensures forall i, j :: 0 <= i < j < |page.globalData| ==>
              StatusSort.Rank(page.globalData[i]) <= StatusSort.Rank(page.globalData[j])
    ensures |page.links| == |page.statusFilters| + |Facets.VehicleStatusFilters|
  {
    var g := StatusSort.SortByStatus(raw);
    var sc := FilterCounts.CalculateFilterCounts(g, StatusFacet);
    var vsc := FilterCounts.CalculateFilterCounts(g, VehicleStatusFacet);
    var sf := Facets.StatusFilters(g);
    Page(g, sc, vsc, sf, GenerateNavbar(sf, Facets.VehicleStatusFilters, sc, vsc))
  }

  /** `applyFilters` on the page for the current filters: the matching
      records, as often as they occur, in the order of `globalData`. */
  function ShownCards(page: Page, st: FilterState): (shown: seq<Record>)
    ensures forall r :: Occ(shown, r) == if Filters.Matches(r, st.status, st.vehicleStatus) then Occ(page.globalData, r) else 0
    ensures IsSubseq(shown, page.globalData)
  {
    Filters.ApplyFilters(page.globalData, st.status, st.vehicleStatus)
  }

  /** A card: the record and the inventory items suggested for it. */
  datatype Card = Card(record: Record, suggestions: seq<Item>)

  /** The data of `displayCards`: one card per record, in order, each with
      the items `findMatchingInventory` returns for it: every inventory item
      matching the record, as often as it occurs, in inventory order, and
      nothing else. */
  function DisplayCards(data: seq<Record>, inventory: seq<Item>): (cards: seq<Card>)
    ensures |cards| == |data|
    ensures forall i :: 0 <= i < |data| ==> cards[i].record == data[i]
    ensures forall i, it :: 0 <= i < |data| && it in cards[i].suggestions ==>
              Matching.IsMatch(it, data[i]) && it in inventory
    ensures forall i, it :: 0 <= i < |data| ==>
              Occ(cards[i].suggestions, it) == if Matching.IsMatch(it, data[i]) then Occ(inventory, it) else 0
    ensures forall i :: 0 <= i < |data| ==> IsSubseq(cards[i].suggestions, inventory)
  {
    seq(|data|, i requires 0 <= i < |data| => Card(data[i], Matching.FindMatchingInventory(inventory, data[i])))
  }

  /** The badge text of a card: the number of suggestions in decimal,
      present only when there is at least one. */
  function Badge(card: Card): (b: Option<string>)
    ensures b.Some? <==> |card.suggestions| > 0
    ensures b.Some? ==> AllDigits(b.value) && DigitsValue(b.value) == |card.suggestions|
  {
    if |card.suggestions| > 0 then Some(NatToString(|card.suggestions|)) else None
  }

  /** On load, both filters are "All" and every fetched record is shown,
      sorted by vehicle-status rank. */
  lemma InitialViewShowsAll(raw: seq<Record>)
    ensures ShownCards(FetchData(raw), Initial) == FetchData(raw).globalData
    ensures multiset(ShownCards(FetchData(raw), Initial)) == multiset(raw)
  {
    Filters.AllShowsEverything(FetchData(raw).globalData);
  }

  /** For a value other than "All", the count the navbar displays for it is
      the number of records filtering on it shows. */
  lemma CountIsShownRecords(data: seq<Record>, f: Facet, v: string)
    requires v != "All"
    ensures var shown := if f == StatusFacet then Filters.ApplyFilters(data, v, "All")
                         else Filters.ApplyFilters(data, "All", v);
            FilterCounts.DisplayCount(FilterCounts.CalculateFilterCounts(data, f), v) == |shown|
  {
    FilterCounts.ShownCount(data, f, v);
    Filters.FacetFilterCount(data, f, v);
  }

  /** Every link other than "All" shows the number of cards displayed after
      clicking it on the initial page. This holds for both facets, and
      includes vehicle statuses no record carries, which show 0 and yield
      no card. */
  lemma LinkCountIsCardCount(raw: seq<Record>)
    ensures var page := FetchData(raw);
            forall i :: 0 <= i < |page.links| && page.links[i].filter != "All" ==>
              ParseLabel(page.links[i].text)
                == Some((page.links[i].filter, |ShownCards(page, Click(Initial, page.links[i]))|))
  {
    var page := FetchData(raw);
    var g := page.globalData;
    var n := |page.statusFilters|;
    forall i | 0 <= i < |page.links| && page.links[i].filter != "All"
      ensures ParseLabel(page.links[i].text)
                == Some((page.links[i].filter, |ShownCards(page, Click(Initial, page.links[i]))|))
    {
      if i < n {
        CountIsShownRecords(g, StatusFacet, page.statusFilters[i]);
      } else {
        var j := i - n;
        assert page.links[i] == page.links[n + j];
        CountIsShownRecords(g, VehicleStatusFacet, Facets.VehicleStatusFilters[j]);
      }
    }
  }

  /** The status "All" link is labelled with the number of records plus the
      number of records whose status is literally "All" (its text reads back
      as that count by `GenerateNavbar`); clicking it shows every record, so
      the two agree exactly when no status is "All". */
  lemma AllLinkCount(raw: seq<Record>, page: Page)
    requires page == FetchData(raw)
    ensures page.links[0].filter == "All" && page.links[0].kind == StatusFacet
    ensures FilterCounts.DisplayCount(page.statusCounts, page.links[0].filter)
              == |raw| + Occ(Values(page.globalData, StatusFacet), "All")
    ensures |ShownCards(page, Click(Initial, page.links[0]))| == |raw|
  {
    var g := page.globalData;
    FilterCounts.ShownCount(g, StatusFacet, "All");
    InitialViewShowsAll(raw);
    assert |g| == |raw| by {
      assert |multiset(g)| == |multiset(raw)|;
    }
  }

  /** Whatever link of the page is clicked, it is highlighted afterwards. */
  lemma ClickedPageLinkHighlighted(raw: seq<Record>, st: FilterState)
    ensures var links := FetchData(raw).links;
            forall i :: 0 <= i < |links| ==> HighlightedAsWritten(links[i], Click(st, links[i]))
  {
    var page := FetchData(raw);
    NavbarClickHighlights(page.statusFilters, Facets.VehicleStatusFilters, page.statusCounts, page.vehicleStatusCounts, st);
  }

  /** When no record's status is literally "All", the status filter list
      holds no value twice. */
  lemma StatusFiltersDistinct(raw: seq<Record>)
    requires forall k :: 0 <= k < |raw| ==> raw[k].status != "All"
    ensures NoDuplicates(FetchData(raw).statusFilters)
  {
    var g := StatusSort.SortByStatus(raw);
    forall i | 0 <= i < |g|
      ensures g[i].status != "All"
    {
      assert g[i] in multiset(raw);
    }
    Facets.StatusFiltersNoDuplicates(g);
  }

  /** With the corrected test, clicking a link of the page selects that link
      and no other link of its facet, as long as no record's status is
      literally "All" (which would list "All" twice). */
  lemma ClickSelectsOnlyClicked(raw: seq<Record>, st: FilterState)
    requires forall k :: 0 <= k < |raw| ==> raw[k].status != "All"
    ensures var links := FetchData(raw).links;
            forall i, j :: 0 <= i < |links| && 0 <= j < |links| && links[i].kind == links[j].kind ==>
              (Selected(links[j], Click(st, links[i])) <==> i == j)
  {
    var page := FetchData(raw);
    StatusFiltersDistinct(raw);
    Facets.VehicleStatusFiltersDistinct();
    SelectionExclusive(page.statusFilters, Facets.VehicleStatusFilters, page.statusCounts, page.vehicleStatusCounts, st);
  }
}

=== FILE: digits.dfy ===
/** Decimal digit strings: the `${count}` rendering of a count and the digit
    runs read back by `parseFloat`. */
module Digits {

  predicate IsDigit(c: char)
  {
    '0' <= c <= '9'
  }

  predicate AllDigits(s: string)
  {
    forall i :: 0 <= i < |s| ==> IsDigit(s[i])
  }

  function DigitValue(c: char): nat
    requires IsDigit(c)
  {
    c as int - '0' as int
  }

  function DigitChar(d: nat): (c: char)
    requires d < 10
    ensures IsDigit(c) && DigitValue(c) == d
  {
    ('0' as int + d) as char
  }

  /** The number a string of decimal digits denotes (0 for the empty string). */
  function DigitsValue(s: string): nat
    requires AllDigits(s)
  {
    if |s| == 0 then 0
    else DigitsValue(s[..|s| - 1]) * 10 + DigitValue(s[|s| - 1])
  }

  /** The canonical decimal rendering of `n`, as a template literal prints it:
      non-empty, digits only, no leading zero, and it reads back as `n`. */
  function NatToString(n: nat): (r: string)
    ensures |r| > 0 && AllDigits(r)
    ensures r[0] == '0' ==> n == 0
    ensures DigitsValue(r) == n
  {
    if n < 10 then [DigitChar(n)]
    else
      var r := NatToString(n / 10) + [DigitChar(n % 10)];
      assert r[..|r| - 1] == NatToString(n / 10);
      r
  }
}

=== FILE: facets.dfy ===
/** The lists of filter values the navbar offers for each facet. */
module Facets {

  import opened Seqs
  import opened Records

  /** `["All", ...new Set(data.map((item) => item.Status))]`: "All" followed by
      each status carried by some record, once, in the order in which the
      statuses first occur in `data`. */
  function StatusFilters(data: seq<Record>): (fs: seq<string>)
    ensures |fs| >= 1 && fs[0] == "All"
    ensures forall v :: v in fs[1..] <==> v in Values(data, StatusFacet)
    ensures forall i :: 0 <= i < |data| ==> data[i].status in fs[1..]
    ensures NoDuplicates(fs[1..])
    ensures forall i, j :: 1 <= i < j < |fs| ==>
              IndexOf(Values(data, StatusFacet), fs[i]) < IndexOf(Values(data, StatusFacet), fs[j])
  {
    var d := Distinct(Values(data, StatusFacet));
    var fs := ["All"] + d;
    assert fs[1..] == d;
    assert forall i :: 0 <= i < |data| ==> data[i].status == Values(data, StatusFacet)[i];
    fs
  }

  /** The fixed list of `Vehicle Status` filters. */
  const VehicleStatusFilters: seq<string> := ["All", "In Inventory", "Sold or Traded", "Never in Inventory"]

  /** The vehicle-status filters are pairwise different, so each facet value
      has one link. */
  lemma VehicleStatusFiltersDistinct()
    ensures NoDuplicates(VehicleStatusFilters)
  {
  }

  /** When no record's status is literally "All", the status list holds no
      value twice. */
  lemma StatusFiltersNoDuplicates(data: seq<Record>)
    requires forall i :: 0 <= i < |data| ==> data[i].status != "All"
    ensures NoDuplicates(StatusFilters(data))
  {
    var fs := StatusFilters(data);
    assert "All" !in Values(data, StatusFacet);
    assert "All" !in fs[1..];
    assert fs == [fs[0]] + fs[1..];
  }
}

=== FILE: filter_counts.dfy ===
/** `calculateFilterCounts` and the `counts[filter] || 0` lookup the navbar
    makes: a map from facet value to number of records, with an `All` entry. */
module FilterCounts {

  import opened Seqs
  import opened Records

  /** All values of a count map are non-negative. */
  predicate NonNegative(m: map<string, int>)
  {
    forall k :: k in m ==> m[k] >= 0
  }

  /** One step of the `forEach`: `if (counts[value]) counts[value]++ else counts[value] = 1`.
      A present entry is truthy exactly when it is not 0. */
  function Bump(m: map<string, int>, v: string): map<string, int>
  {
    if v in m && m[v] != 0 then m[v := m[v] + 1] else m[v := 1]
  }

  /** Runs the `forEach` over `vals`, starting from `init`. A key already
      holding a positive count gains its occurrences; any other key seen in
      `vals` ends with exactly its occurrences; unseen keys keep their value. */
  function Tally(vals: seq<string>, init: map<string, int>): (m: map<string, int>)
    requires NonNegative(init)
    ensures NonNegative(m)
    ensures forall k :: k in m <==> k in init || Occ(vals, k) > 0
    ensures forall k :: k in m && k in init && init[k] > 0 ==> m[k] == init[k] + Occ(vals, k)
    ensures forall k :: k in m && !(k in init && init[k] > 0) && Occ(vals, k) > 0 ==> m[k] == Occ(vals, k)
    ensures forall k :: k in init && Occ(vals, k) == 0 ==> m[k] == init[k]
  {
    if |vals| == 0 then init
    else
      var p := vals[..|vals| - 1];
      var v := vals[|vals| - 1];
      assert vals == p + [v];
      var m := Tally(p, init);
      TallyStep(init, p, v, m);
      Bump(m, v)
  }

  /** One more value bumps its own count and no other, so the relation
      between the counts, the start map and the values seen survives the step. */
  lemma TallyStep(init: map<string, int>, p: seq<string>, v: string, m: map<string, int>)
    requires NonNegative(init) && NonNegative(m)
    requires forall k :: k in m <==> k in init || Occ(p, k) > 0
    requires forall k :: k in m && k in init && init[k] > 0 ==> m[k] == init[k] + Occ(p, k)
    requires forall k :: k in m && !(k in init && init[k] > 0) && Occ(p, k) > 0 ==> m[k] == Occ(p, k)
    requires forall k :: k in init && Occ(p, k) == 0 ==> m[k] == init[k]
    ensures var m' := Bump(m, v);
            && NonNegative(m')
            && (forall k :: k in m' <==> k in init || Occ(p + [v], k) > 0)
            && (forall k :: k in m' && k in init && init[k] > 0 ==> m'[k] == init[k] + Occ(p + [v], k))
            && (forall k :: k in m' && !(k in init && init[k] > 0) && Occ(p + [v], k) > 0 ==> m'[k] == Occ(p + [v], k))
            && (forall k :: k in init && Occ(p + [v], k) == 0 ==> m'[k] == init[k])
  {
    var m' := Bump(m, v);
    assert multiset(p + [v]) == multiset(p) + multiset{v};
    forall k
      ensures Occ(p + [v], k) == Occ(p, k) + (if k == v then 1 else 0)
    {
    }
  }

  /** `calculateFilterCounts(data, filterType)`. `All` holds `data.length`
      plus one for every record whose value is literally "All" (the loop bumps
      that entry too); every other key is a value some record carries, and
      holds the number of records carrying it. */
  function CalculateFilterCounts(data: seq<Record>, f: Facet): (counts: map<string, int>)
    ensures NonNegative(counts)
    ensures "All" in counts && counts["All"] == |data| + Occ(Values(data, f), "All")
    ensures forall v :: v != "All" ==> (v in counts <==> Occ(Values(data, f), v) > 0)
    ensures forall v :: v != "All" && v in counts ==> counts[v] == Occ(Values(data, f), v)
  {
    var vals := Values(data, f);
    var init := map["All" := |data|];
    var m := Tally(vals, init);
    assert Occ(vals, "All") > 0 ==> |data| > 0;
    m
  }

  /** `counts[filter] || 0`: an absent (undefined) or zero entry shows as 0. */
  function DisplayCount(counts: map<string, int>, filter: string): int
  {
    if filter in counts && counts[filter] != 0 then counts[filter] else 0
  }

  /** The count a navbar link shows: the number of records holding the value,
      0 for a value no record holds, and for `All` the record count plus the
      records whose value is literally "All". */
  lemma ShownCount(data: seq<Record>, f: Facet, v: string)
    ensures DisplayCount(CalculateFilterCounts(data, f), v)
         == if v == "All" then |data| + Occ(Values(data, f), "All") else Occ(Values(data, f), v)
  {
  }

  /** Sum of `m[v]` over the entries of `d` (0 for a key `m` lacks). */
  function SumOver(d: seq<string>, m: map<string, int>): int
  {
    if |d| == 0 then 0
    else SumOver(d[..|d| - 1], m) + (if d[|d| - 1] in m then m[d[|d| - 1]] else 0)
  }

  /** Sum over the entries of `d` of their occurrence counts in `vals`. */
  function SumOcc(d: seq<string>, vals: seq<string>): int
  {
    if |d| == 0 then 0 else SumOcc(d[..|d| - 1], vals) + Occ(vals, d[|d| - 1])
  }

  /** Adding one occurrence of `y` to `vals` raises the sum over a
      duplicate-free `d` by one exactly when `y` is listed in `d`. */
  lemma {:induction false} SumOccAppend(d: seq<string>, vals: seq<string>, y: string)
    requires NoDuplicates(d)
    ensures SumOcc(d, vals + [y]) == SumOcc(d, vals) + (if y in d then 1 else 0)
  {
    if |d| > 0 {
      var p := d[..|d| - 1];
      assert NoDuplicates(p);
      SumOccAppend(p, vals, y);
      assert d == p + [d[|d| - 1]];
      assert multiset(vals + [y]) == multiset(vals) + multiset{y};
    }
  }

  /** Summing the occurrence count of every distinct value gives back the
      number of values: each value is counted once, under its own key. */
  lemma {:induction false} SumOccDistinct(vals: seq<string>)
    ensures SumOcc(Distinct(vals), vals) == |vals|
  {
    if |vals| > 0 {
      var p := vals[..|vals| - 1];
      var y := vals[|vals| - 1];
      assert vals == p + [y];
      SumOccDistinct(p);
      var dp := Distinct(p);
      SumOccAppend(dp, p, y);
      if y !in dp {
        assert Distinct(vals) == dp + [y];
        assert (dp + [y])[..|dp|] == dp;
        assert Occ(p, y) == 0;
      }
    }
  }

  /** Two maps agree on every key of `d`: their sums over `d` agree. */
  lemma {:induction false} SumOverCounts(d: seq<string>, counts: map<string, int>, vals: seq<string>)
    requires forall i :: 0 <= i < |d| ==> d[i] in counts && counts[d[i]] == Occ(vals, d[i])
    ensures SumOver(d, counts) == SumOcc(d, vals)
  {
    if |d| > 0 {
      SumOverCounts(d[..|d| - 1], counts, vals);
    }
  }

  /** When no record carries the literal value "All", the counts of the
      distinct values add up to the `All` count. */
  lemma CountsSumToAll(data: seq<Record>, f: Facet)
    requires forall i :: 0 <= i < |data| ==> Field(data[i], f) != "All"
    ensures var counts := CalculateFilterCounts(data, f);
            SumOver(Distinct(Values(data, f)), counts) == counts["All"]
  {
    var vals := Values(data, f);
    var counts := CalculateFilterCounts(data, f);
    var d := Distinct(vals);
    assert "All" !in vals;
    forall i | 0 <= i < |d|
      ensures d[i] in counts && counts[d[i]] == Occ(vals, d[i])
    {
      assert d[i] in vals;
    }
    SumOverCounts(d, counts, vals);
    SumOccDistinct(vals);
  }
}

=== FILE: filters.dfy ===
/** The record predicates of `applyFilters` (both facets, conjunctive) and
    of the older `filterCardsByStatus` (one filter value, disjunctive). */
module Filters {

  import opened Seqs
  import opened Records

  /** A facet set to "All" imposes no constraint; otherwise the field must
      equal the selected value. */
  predicate FacetMatch(r: Record, f: Facet, selected: string)
  {
    selected == "All" || Field(r, f) == selected
  }

  /** The `applyFilters` predicate: the status match and the vehicle-status match. */
  predicate Matches(r: Record, statusFilter: string, vehicleStatusFilter: string)
  {
    FacetMatch(r, StatusFacet, statusFilter) && FacetMatch(r, VehicleStatusFacet, vehicleStatusFilter)
  }

  /** `globalData.filter(...)` in `applyFilters`: exactly the records
      satisfying both facets, each as often as in `data`, in their order. */
  function ApplyFilters(data: seq<Record>, statusFilter: string, vehicleStatusFilter: string): (shown: seq<Record>)
    ensures forall r :: r in shown ==> Matches(r, statusFilter, vehicleStatusFilter)
    ensures forall r :: Occ(shown, r) == if Matches(r, statusFilter, vehicleStatusFilter) then Occ(data, r) else 0
    ensures IsSubseq(shown, data)
  {
    Filter(r => Matches(r, statusFilter, vehicleStatusFilter), data)
  }

  /** With both facets at "All" every record is shown, in its order. */
  lemma AllShowsEverything(data: seq<Record>)
    ensures ApplyFilters(data, "All", "All") == data
  {
    FilterAll(r => Matches(r, "All", "All"), data);
  }

  /** Filtering on both facets at once is filtering on the status facet and
      then on the vehicle-status facet. */
  lemma {:induction false} FiltersCompose(data: seq<Record>, sf: string, vsf: string)
    ensures ApplyFilters(data, sf, vsf) == ApplyFilters(ApplyFilters(data, sf, "All"), "All", vsf)
  {
    if |data| > 0 {
      FiltersCompose(data[1..], sf, vsf);
    }
  }

  /** The records shown for one value `v` of facet `f` (the other facet at
      "All") are as many as the records carrying `v`. */
  lemma {:induction false} FacetFilterCount(data: seq<Record>, f: Facet, v: string)
    requires v != "All"
    ensures var shown := if f == StatusFacet then ApplyFilters(data, v, "All") else ApplyFilters(data, "All", v);
            |shown| == Occ(Values(data, f), v)
  {
    if |data| > 0 {
      FacetFilterCount(data[1..], f, v);
      assert Values(data, f) == [Field(data[0], f)] + Values(data[1..], f);
      assert Occ(Values(data, f), v) == Occ(Values(data[1..], f), v) + (if Field(data[0], f) == v then 1 else 0);
      var sf, vsf := if f == StatusFacet then v else "All", if f == StatusFacet then "All" else v;
      assert Matches(data[0], sf, vsf) <==> Field(data[0], f) == v;
      assert ApplyFilters(data, sf, vsf)
          == (if Matches(data[0], sf, vsf) then [data[0]] else []) + ApplyFilters(data[1..], sf, vsf);
    }
  }

  /** The `filterCardsByStatus` predicate. */
  predicate CardMatch(r: Record, selected: string)
  {
    || selected == "All"
    || r.status == selected
    || r.vehicleStatus == selected
    || (selected == "Sold or Traded" && (r.vehicleStatus == "Sold" || r.vehicleStatus == "Traded"))
  }

  /** `globalData.filter(...)` in `filterCardsByStatus`. */
  function FilterCardsByStatus(data: seq<Record>, selected: string): (shown: seq<Record>)
    ensures forall r :: Occ(shown, r) == if CardMatch(r, selected) then Occ(data, r) else 0
    ensures IsSubseq(shown, data)
  {
    Filter(r => CardMatch(r, selected), data)
  }

  /** A record is kept exactly when it is in `data` and one of the four cases holds. */
  lemma CardKeptIff(data: seq<Record>, selected: string, r: Record)
    ensures r in FilterCardsByStatus(data, selected) <==>
              r in data &&
              (|| selected == "All"
               || r.status == selected
               || r.vehicleStatus == selected
               || (selected == "Sold or Traded" && (r.vehicleStatus == "Sold" || r.vehicleStatus == "Traded")))
  {
    assert Occ(FilterCardsByStatus(data, selected), r) > 0 <==> r in FilterCardsByStatus(data, selected);
    assert Occ(data, r) > 0 <==> r in data;
  }

  /** A record the conjunctive filter shows for `v` on either facet is also
      shown by the disjunctive filter for `v`. */
  lemma ConjunctiveWithinDisjunctive(data: seq<Record>, v: string, r: Record)
    ensures Occ(ApplyFilters(data, v, "All"), r) <= Occ(FilterCardsByStatus(data, v), r)
    ensures Occ(ApplyFilters(data, "All", v), r) <= Occ(FilterCardsByStatus(data, v), r)
  {
  }

  /** The "Sold or Traded" alias: a record whose vehicle status is "Sold" is
      kept by `filterCardsByStatus` but not by the vehicle-status facet of
      `applyFilters`. */
  lemma SoldAliasDiffers(data: seq<Record>, r: Record)
    requires r in data && r.vehicleStatus == "Sold"
    ensures r in FilterCardsByStatus(data, "Sold or Traded")
    ensures r !in ApplyFilters(data, "All", "Sold or Traded")
  {
    assert Occ(data, r) > 0;
    assert Occ(FilterCardsByStatus(data, "Sold or Traded"), r) > 0;
  }

  /** With "All" the older filter shows every record. */
  lemma CardsAllShowsEverything(data: seq<Record>)
    ensures FilterCardsByStatus(data, "All") == data
  {
    FilterAll(r => CardMatch(r, "All"), data);
  }
}

=== FILE: matching.dfy ===
/** `findMatchingInventory`: the inventory items whose year is within one
    and whose price is within 3000 of a record's, after reading string
    prices with `parseFloat(price.replace(/[^\d.]/g, ""))`. */
module Matching {

  import opened Wrappers
  import opened Seqs
  import opened Digits
  import opened Records

  /** An exact decimal number `mant / 10^scale`: the value `parseFloat`
      reads from a string of digits and dots. */
  datatype Dec = Dec(mant: int, scale: nat)

  function Pow10(n: nat): (p: nat)
    ensures p >= 1
  {
    if n == 0 then 1 else 10 * Pow10(n - 1)
  }

  /** A character the price regex keeps: an ASCII digit or a dot. */
  predicate PriceChar(c: char)
  {
    IsDigit(c) || c == '.'
  }

  predicate AllPriceChars(s: string)
  {
    forall i :: 0 <= i < |s| ==> PriceChar(s[i])
  }

  /** `price.replace(/[^\d.]/g, "")`: deletes every character other than a
      digit or a dot, keeping the others in order. */
  function StripPrice(s: string): (t: string)
    ensures AllPriceChars(t)
    ensures IsSubseq(t, s)
  {
    if |s| == 0 then ""
    else if PriceChar(s[0]) then [s[0]] + StripPrice(s[1..])
    else StripPrice(s[1..])
  }

  /** The stripped price holds exactly the digits and dots of the original. */
  lemma {:induction false} StripKeeps(s: string)
    ensures forall c :: c in StripPrice(s) <==> c in s && PriceChar(c)
  {
    if |s| > 0 {
      StripKeeps(s[1..]);
      assert s == [s[0]] + s[1..];
    }
  }

  /** Length of the run of digits at the front of `t`. */
  function LeadingDigits(t: string): (k: nat)
    ensures k <= |t| && AllDigits(t[..k])
    ensures k < |t| ==> !IsDigit(t[k])
  {
    if |t| == 0 || !IsDigit(t[0]) then 0
    else
      var k := LeadingDigits(t[1..]);
      assert t[..k + 1] == [t[0]] + t[1..][..k];
      k + 1
  }

  /** The digits before the first non-digit. */
  function WholeDigits(t: string): (w: string)
    ensures AllDigits(w) && w <= t
  {
    t[..LeadingDigits(t)]
  }

  /** The digits following a dot that directly ends the leading digit run. */
  function FractionDigits(t: string): (f: string)
    ensures AllDigits(f)
  {
    var rest := t[LeadingDigits(t)..];
    if |rest| > 0 && rest[0] == '.' then WholeDigits(rest[1..]) else []
  }

  /** `parseFloat` on a string of digits and dots: the leading digits, then,
      after one dot, the digits up to the next dot. With no digit on either
      side of that dot the result is `NaN` (`None`). */
  function ParseFloat(t: string): (r: Option<Dec>)
    requires AllPriceChars(t)
    ensures r.None? <==> |t| == 0 || (t[0] == '.' && (|t| == 1 || !IsDigit(t[1])))
  {
    var w := WholeDigits(t);
    var f := FractionDigits(t);
    assert LeadingDigits(t) == 0 ==> t[LeadingDigits(t)..] == t;
    assert |t| > 0 && !IsDigit(t[0]) ==> PriceChar(t[0]);
    if |w| == 0 && |f| == 0 then None
    else Some(DecimalValue(w, f))
  }

  /** The exact value of the decimal numeral "<whole>.<fraction>". */
  function DecimalValue(whole: string, fraction: string): (d: Dec)
    requires AllDigits(whole) && AllDigits(fraction)
    ensures d.scale == |fraction|
  {
    Dec(DigitsValue(whole) * Pow10(|fraction|) + DigitsValue(fraction), |fraction|)
  }

  /** The number a `Price` field is compared as: a JSON number as it is, a
      string through `StripPrice` and `ParseFloat`; `None` stands for `NaN`. */
  function NormalizePrice(p: PriceField): Option<Dec>
  {
    match p
    case Num(n) => Some(Dec(n, 0))
    case Str(s) => ParseFloat(StripPrice(s))
  }

  /** `Math.abs(a - b) <= 3000`, computed exactly over a common denominator. */
  predicate WithinPrice(a: Dec, b: Dec)
  {
    var diff := a.mant * Pow10(b.scale) - b.mant * Pow10(a.scale);
    -3000 * Pow10(a.scale + b.scale) <= diff <= 3000 * Pow10(a.scale + b.scale)
  }

  /** The `findMatchingInventory` predicate on two (year, price) pairs:
      years at most 1 apart and prices at most 3000 apart; a `NaN` price
      makes the difference `NaN`, and `NaN <= 3000` is false. */
  predicate Near(year1: int, price1: PriceField, year2: int, price2: PriceField)
  {
    && -1 <= year1 - year2 <= 1
    && NormalizePrice(price1).Some?
    && NormalizePrice(price2).Some?
    && WithinPrice(NormalizePrice(price1).value, NormalizePrice(price2).value)
  }

  predicate IsMatch(item: Item, record: Record)
  {
    Near(item.year, item.price, record.year, record.price)
  }

  /** `findMatchingInventory(record)` over the inventory `inventory`: every
      item returned is within a year and within 3000 in price of the record;
      exactly the matching items are kept, in inventory order. */
  function FindMatchingInventory(inventory: seq<Item>, record: Record): (found: seq<Item>)
    ensures forall it :: it in found ==>
              && -1 <= it.year - record.year <= 1
              && NormalizePrice(it.price).Some? && NormalizePrice(record.price).Some?
              && WithinPrice(NormalizePrice(it.price).value, NormalizePrice(record.price).value)
    ensures forall it :: Occ(found, it) == if IsMatch(it, record) then Occ(inventory, it) else 0
    ensures IsSubseq(found, inventory)
  {
    Filter(it => IsMatch(it, record), inventory)
  }

  /** Matching does not depend on which side is the item and which the record. */
  lemma NearSymmetric(year1: int, price1: PriceField, year2: int, price2: PriceField)
    ensures Near(year1, price1, year2, price2) <==> Near(year2, price2, year1, price1)
  {
  }

  /** For whole-number prices the exact comparison is the plain `|x - y| <= 3000`. */
  lemma WholePrices(x: int, y: int)
    ensures WithinPrice(Dec(x, 0), Dec(y, 0)) <==> -3000 <= x - y <= 3000
  {
  }

  /** The real number a `Dec` denotes. */
  function DecValue(d: Dec): real
  {
    d.mant as real / Pow10(d.scale) as real
  }

  lemma {:induction false} Pow10Add(x: nat, y: nat)
    ensures Pow10(x + y) == Pow10(x) * Pow10(y)
  {
    if x > 0 {
      Pow10Add(x - 1, y);
      assert Pow10(x + y) == 10 * Pow10(x - 1 + y);
    }
  }

  /** Over a common denominator `a * b`, the difference of two fractions is
      the difference of the cross products. */
  lemma FractionDifference(m: real, n: real, a: real, b: real)
    requires a > 0.0 && b > 0.0
    ensures m / a - n / b == (m * b - n * a) / (a * b)
  {
    assert m / a == (m * b) / (a * b);
    assert n / b == (n * a) / (a * b);
  }

  /** Dividing by a positive denominator keeps the bounds `-3000..3000`. */
  lemma ScaledBound(x: real, p: real)
    requires p > 0.0
    ensures -3000.0 * p <= x <= 3000.0 * p <==> -3000.0 <= x / p <= 3000.0
  {
    assert x == (x / p) * p;
  }

  lemma CastMul(m: int, n: int)
    ensures (m * n) as real == (m as real) * (n as real)
  {
  }

  /** The bound on the cross-multiplied difference is the bound on the
      difference of the fractions. */
  lemma CrossBound(m: real, n: real, a: real, b: real, d: real, p: real)
    requires a > 0.0 && b > 0.0 && p == a * b && d == m * b - n * a
    ensures -3000.0 * p <= d <= 3000.0 * p <==> -3000.0 <= m / a - n / b <= 3000.0
  {
    FractionDifference(m, n, a, b);
    ScaledBound(d, p);
  }

  /** `CrossBound` on integers: the integer test over the common
      denominator `pa * pb` is the real test on `m / pa - n / pb`. */
  lemma IntCrossBound(m: int, n: int, pa: int, pb: int)
    requires pa > 0 && pb > 0
    ensures -3000 * (pa * pb) <= m * pb - n * pa <= 3000 * (pa * pb)
        <==> -3000.0 <= m as real / pa as real - n as real / pb as real <= 3000.0
  {
    var p := pa * pb;
    var d := m * pb - n * pa;
    CastMul(m, pb);
    CastMul(n, pa);
    CastMul(pa, pb);
    CastMul(3000, p);
    CastMul(-3000, p);
    CrossBound(m as real, n as real, pa as real, pb as real, d as real, p as real);
  }

  /** `WithinPrice` is `Math.abs(a - b) <= 3000` on the exact values of the
      two decimals, whatever their scales. */
  lemma WithinPriceExact(a: Dec, b: Dec)
    ensures WithinPrice(a, b) <==> -3000.0 <= DecValue(a) - DecValue(b) <= 3000.0
  {
    Pow10Add(a.scale, b.scale);
    IntCrossBound(a.mant, b.mant, Pow10(a.scale), Pow10(b.scale));
  }

  /** A string price without any digit reads as `NaN`. */
  lemma NoDigitsIsNaN(s: string)
    requires forall i :: 0 <= i < |s| ==> !IsDigit(s[i])
    ensures NormalizePrice(Str(s)) == None
  {
    var t := StripPrice(s);
    StripKeeps(s);
    forall i | 0 <= i < |t|
      ensures t[i] == '.'
    {
      assert t[i] in t;
    }
  }

  /** A record whose price reads as `NaN` matches no item at all. */
  lemma {:induction false} NaNMatchesNothing(inventory: seq<Item>, record: Record)
    requires NormalizePrice(record.price).None?
    ensures FindMatchingInventory(inventory, record) == []
  {
    if |inventory| > 0 {
      NaNMatchesNothing(inventory[1..], record);
    }
  }

  /** A price whose digits-and-dots reading has no dot reads as that whole number. */
  lemma DigitOnlyPrice(s: string)
    requires |StripPrice(s)| > 0 && AllDigits(StripPrice(s))
    ensures NormalizePrice(Str(s)) == Some(Dec(DigitsValue(StripPrice(s)), 0))
  {
    ParseWhole(StripPrice(s));
  }

  /** The regex works character by character: stripping a concatenation
      strips each part. */
  lemma {:induction false} StripConcat(a: string, b: string)
    ensures StripPrice(a + b) == StripPrice(a) + StripPrice(b)
  {
    if |a| > 0 {
      StripConcat(a[1..], b);
      assert (a + b)[0] == a[0];
      assert (a + b)[1..] == a[1..] + b;
      if PriceChar(a[0]) {
        assert StripPrice(a + b) == [a[0]] + StripPrice(a[1..] + b);
        assert StripPrice(a) == [a[0]] + StripPrice(a[1..]);
      } else {
        assert StripPrice(a + b) == StripPrice(a[1..] + b);
      }
    } else {
      assert a + b == b;
    }
  }

  /** A string of digits and dots is left as it is. */
  lemma {:induction false} StripPriceChars(s: string)
    requires AllPriceChars(s)
    ensures StripPrice(s) == s
  {
    if |s| > 0 {
      StripPriceChars(s[1..]);
      assert s == [s[0]] + s[1..];
    }
  }

  /** The digit run at the front of `d + rest` is `d` when `rest` does not
      start with a digit. */
  lemma {:induction false} LeadingDigitsOf(d: string, rest: string)
    requires AllDigits(d)
    requires |rest| == 0 || !IsDigit(rest[0])
    ensures LeadingDigits(d + rest) == |d|
  {
    if |d| > 0 {
      LeadingDigitsOf(d[1..], rest);
      assert (d + rest)[1..] == d[1..] + rest;
    }
  }

  lemma WholeDigitsOf(d: string, rest: string)
    requires AllDigits(d)
    requires |rest| == 0 || !IsDigit(rest[0])
    ensures WholeDigits(d + rest) == d
    ensures (d + rest)[LeadingDigits(d + rest)..] == rest
  {
    LeadingDigitsOf(d, rest);
  }

  /** `parseFloat` reads "<whole>.<fraction>" as whole + fraction / 10^|fraction|
      and ignores a second dot and anything after it. */
  lemma ParseDecimal(whole: string, fraction: string, tail: string)
    requires AllDigits(whole) && AllDigits(fraction) && |whole| + |fraction| > 0
    requires AllPriceChars(tail)
    requires |tail| == 0 || tail[0] == '.'
    ensures ParseFloat(whole + "." + fraction + tail) == Some(DecimalValue(whole, fraction))
  {
    var after := ['.'] + (fraction + tail);
    var t := whole + after;
    assert whole + "." + fraction + tail == t;
    assert AllPriceChars(t) by {
      assert forall i :: 0 <= i < |whole| ==> t[i] == whole[i];
      assert forall i :: |whole| + 1 <= i < |whole| + 1 + |fraction| ==> t[i] == fraction[i - |whole| - 1];
      assert forall i :: |whole| + 1 + |fraction| <= i < |t| ==> t[i] == tail[i - |whole| - 1 - |fraction|];
    }
    WholeDigitsOf(whole, after);
    WholeDigitsOf(fraction, tail);
    assert after[1..] == fraction + tail;
    assert FractionDigits(t) == fraction;
  }

  /** `parseFloat` reads a non-empty digit string as that whole number. */
  lemma ParseWhole(d: string)
    requires AllDigits(d) && |d| > 0
    ensures ParseFloat(d) == Some(DecimalValue(d, ""))
  {
    assert LeadingDigits(d) == |d| by {
      LeadingDigitsOf(d, "");
      assert d + "" == d;
    }
    assert WholeDigits(d) == d;
    assert FractionDigits(d) == [] by {
      assert d[|d|..] == [];
    }
  }

  /** The dollar sign and the thousands separator around a digit run are dropped. */
  lemma StripDollarThousands(thousands: string)
    requires AllDigits(thousands)
    ensures StripPrice("$" + thousands + ",") == thousands
  {
    StripConcat("$" + thousands, ",");
    StripConcat("$", thousands);
    StripPriceChars(thousands);
    assert StripPrice("$") == [] && StripPrice(",") == [];
  }

  /** "<hundreds>.<cents>" consists of digits and dots only. */
  lemma AmountPriceChars(hundreds: string, cents: string)
    requires AllDigits(hundreds) && AllDigits(cents)
    ensures AllPriceChars(hundreds + "." + cents)
  {
    var amount := hundreds + "." + cents;
    assert forall i :: 0 <= i < |hundreds| ==> amount[i] == hundreds[i];
    assert forall i :: |hundreds| < i < |amount| ==> amount[i] == cents[i - |hundreds| - 1];
  }

  /** The price regex turns "$<thousands>,<hundreds>.<cents>" into
      "<thousands><hundreds>.<cents>". */
  lemma StripFormatted(thousands: string, hundreds: string, cents: string)
    requires AllDigits(thousands) && AllDigits(hundreds) && AllDigits(cents)
    ensures StripPrice("$" + thousands + "," + hundreds + "." + cents) == thousands + (hundreds + "." + cents)
  {
    var amount := hundreds + "." + cents;
    var front := "$" + thousands + ",";
    assert "$" + thousands + "," + hundreds + "." + cents == front + amount;
    StripDollarThousands(thousands);
    AmountPriceChars(hundreds, cents);
    StripConcat(front, amount);
    StripPriceChars(amount);
  }

  /** A price written as "$<thousands>,<hundreds>.<cents>" reads as its exact
      value: the dollar sign and the separator are dropped, the cents kept. */
  lemma FormattedPrice(thousands: string, hundreds: string, cents: string)
    requires AllDigits(thousands) && AllDigits(hundreds) && AllDigits(cents)
    requires |thousands| > 0
    ensures NormalizePrice(Str("$" + thousands + "," + hundreds + "." + cents))
         == Some(DecimalValue(thousands + hundreds, cents))
  {
    var digits := thousands + hundreds;
    assert AllDigits(digits) by {
      assert forall i :: |thousands| <= i < |digits| ==> digits[i] == hundreds[i - |thousands|];
    }
    StripFormatted(thousands, hundreds, cents);
    assert thousands + (hundreds + "." + cents) == digits + "." + cents + "";
    ParseDecimal(digits, cents, "");
  }

  /** The bounds are inclusive: whole prices exactly 3000 apart, one year
      apart, match; one more unit of price or year does not. */
  lemma BoundsInclusive(year: int, price: int)
    ensures Near(year + 1, Num(price + 3000), year, Num(price))
    ensures !Near(year, Num(price + 3001), year, Num(price))
    ensures !Near(year + 2, Num(price), year, Num(price))
  {
  }

}

=== FILE: navbar.dfy ===
/** The navbar links: their `"<filter> (<count>)"` text, the click handler
    that sets the current filter of the link's facet, and the
    `highlightSelectedFilters` test deciding which links get the `selected` class. */
module Navbar {

  import opened Wrappers
  import opened Seqs
  import opened Digits
  import opened Records
  import FilterCounts

  /** The decimal rendering of an integer, as `${count}` prints it. The
      counts a link shows come from a `NonNegative` map, so the '-' branch
      never runs for them; it keeps the rendering total over `int`. */
  function IntToString(n: int): (s: string)
    ensures '(' !in s
  {
    var s := if n < 0 then "-" + NatToString(-n) else NatToString(n);
    assert forall i :: 0 <= i < |s| ==> s[i] != '(' by {
      var d := NatToString(if n < 0 then -n else n);
      assert forall i :: 0 <= i < |d| ==> IsDigit(d[i]);
    }
    s
  }

  /** Reads back an integer rendered by `IntToString`. */
  function ParseInt(s: string): Option<int>
  {
    if |s| > 0 && AllDigits(s) then Some(DigitsValue(s))
    else if |s| > 1 && s[0] == '-' && AllDigits(s[1..]) then Some(0 - DigitsValue(s[1..]))
    else None
  }

  lemma ParseIntRoundTrip(n: int)
    ensures ParseInt(IntToString(n)) == Some(n)
  {
    if n < 0 {
      var s := IntToString(n);
      assert s[1..] == NatToString(-n);
      assert !IsDigit(s[0]);
    }
  }

  /** The text of a link: `${filter} (${count})`. */
  function Label(filter: string, count: int): string
  {
    filter + " (" + IntToString(count) + ")"
  }

  /** Splits a link text at its last '(' back into filter and count. */
  function ParseLabel(text: string): Option<(string, int)>
  {
    if |text| == 0 || text[|text| - 1] != ')' then None
    else
      match LastIndexOf(text[..|text| - 1], '(')
      case None => None
      case Some(k) =>
        if k < 1 || text[k - 1] != ' ' then None
        else
          match ParseInt(text[k + 1..|text| - 1])
          case None => None
          case Some(n) => Some((text[..k - 1], n))
  }

  /** The index `i` is the last occurrence of `x` in `s`. */
  lemma LastIndexOfIs<T>(s: seq<T>, x: T, i: nat)
    requires i < |s| && s[i] == x && x !in s[i + 1..]
    ensures LastIndexOf(s, x) == Some(i)
  {
  }

  /** A link's text determines its filter and its count: the last '(' of the
      text is the one the label adds, since a rendered count has none. */
  lemma LabelRoundTrip(filter: string, count: int)
    ensures ParseLabel(Label(filter, count)) == Some((filter, count))
  {
    var d := IntToString(count);
    var text := Label(filter, count);
    var body := text[..|text| - 1];
    var k := |filter| + 1;
    assert body == filter + " (" + d;
    assert body[k + 1..] == d;
    LastIndexOfIs(body, '(', k);
    assert text[..k - 1] == filter;
    assert text[k + 1..|text| - 1] == d;
    ParseIntRoundTrip(count);
  }

  /** Different (filter, count) pairs give different link texts. */
  lemma LabelInjective(f1: string, c1: int, f2: string, c2: int)
    requires Label(f1, c1) == Label(f2, c2)
    ensures f1 == f2 && c1 == c2
  {
    LabelRoundTrip(f1, c1);
    LabelRoundTrip(f2, c2);
  }

  /** A navbar link: its text, its `data-type` and the filter value its click
      handler captured. */
  datatype Link = Link(text: string, kind: Facet, filter: string)

  /** `createFilterLink(filter, type, count)`. */
  function CreateFilterLink(filter: string, kind: Facet, count: int): (link: Link)
    ensures ParseLabel(link.text) == Some((filter, count))
    ensures link.kind == kind && link.filter == filter
  {
    LabelRoundTrip(filter, count);
    Link(Label(filter, count), kind, filter)
  }

  /** The link belongs to facet `kind`, sets `filter` when clicked, and its
      text reads back as `filter` and `count`. */
  predicate Shows(link: Link, kind: Facet, filter: string, count: int)
  {
    link.kind == kind && link.filter == filter && ParseLabel(link.text) == Some((filter, count))
  }

  /** One facet's links, each showing `counts[filter] || 0`. */
  function FacetLinks(filters: seq<string>, kind: Facet, counts: map<string, int>): (links: seq<Link>)
    ensures |links| == |filters|
    ensures forall i :: 0 <= i < |filters| ==>
              Shows(links[i], kind, filters[i], FilterCounts.DisplayCount(counts, filters[i]))
  {
    seq(|filters|, i requires 0 <= i < |filters| =>
      CreateFilterLink(filters[i], kind, FilterCounts.DisplayCount(counts, filters[i])))
  }

  /** The links `generateNavbar` appends: the status filters, then the
      vehicle-status filters. Each link's text reads back as its filter and
      the count the facet's map gives it, 0 when the map has no entry. */
  function GenerateNavbar(statusFilters: seq<string>, vehicleStatusFilters: seq<string>,
                          statusCounts: map<string, int>, vehicleStatusCounts: map<string, int>): (links: seq<Link>)
    ensures |links| == |statusFilters| + |vehicleStatusFilters|
    ensures forall i :: 0 <= i < |statusFilters| ==>
              Shows(links[i], StatusFacet, statusFilters[i], FilterCounts.DisplayCount(statusCounts, statusFilters[i]))
    ensures forall j :: 0 <= j < |vehicleStatusFilters| ==>
              Shows(links[|statusFilters| + j], VehicleStatusFacet, vehicleStatusFilters[j],
                    FilterCounts.DisplayCount(vehicleStatusCounts, vehicleStatusFilters[j]))
  {
    var s := FacetLinks(statusFilters, StatusFacet, statusCounts);
    var v := FacetLinks(vehicleStatusFilters, VehicleStatusFacet, vehicleStatusCounts);
    assert forall j :: 0 <= j < |v| ==> (s + v)[|s| + j] == v[j];
    s + v
  }

  /** The two current filters (`currentStatusFilter`, `currentVehicleStatusFilter`). */
  datatype FilterState = FilterState(status: string, vehicleStatus: string)

  /** Both filters start at "All". */
  const Initial: FilterState := FilterState("All", "All")

  function Current(st: FilterState, kind: Facet): string
  {
    match kind
    case StatusFacet => st.status
    case VehicleStatusFacet => st.vehicleStatus
  }

  /** The click handler: sets the current filter of the link's facet to the
      link's filter and leaves the other facet's filter alone. */
  function Click(st: FilterState, link: Link): (st': FilterState)
    ensures Current(st', link.kind) == link.filter
    ensures forall k :: k != link.kind ==> Current(st', k) == Current(st, k)
  {
    match link.kind
    case StatusFacet => st.(status := link.filter)
    case VehicleStatusFacet => st.(vehicleStatus := link.filter)
  }

  /** The `highlightSelectedFilters` test as written: the link text contains
      the current filter of the link's facet as a substring. */
  predicate HighlightedAsWritten(link: Link, st: FilterState)
  {
    || (link.kind == StatusFacet && Contains(link.text, st.status))
    || (link.kind == VehicleStatusFacet && Contains(link.text, st.vehicleStatus))
  }

  /** The link of the current filter is always highlighted. */
  lemma CurrentLinkHighlighted(filter: string, kind: Facet, count: int, st: FilterState)
    requires Current(st, kind) == filter
    ensures HighlightedAsWritten(CreateFilterLink(filter, kind, count), st)
  {
    var text := Label(filter, count);
    assert text[..|filter|] == filter;
    assert OccursAt(text, filter, 0);
  }

  /** A text that reads back as a filter starts with that filter, so
      contains it. */
  lemma ParsedLabelContainsFilter(text: string, filter: string, count: int)
    requires ParseLabel(text) == Some((filter, count))
    ensures Contains(text, filter)
  {
    var k := LastIndexOf(text[..|text| - 1], '(').value;
    assert text[..k - 1] == filter;
    assert OccursAt(text, filter, 0);
  }

  /** A link whose text reads back as its own filter is highlighted after
      its click. */
  lemma ParsedLinkHighlighted(link: Link, st: FilterState, count: int)
    requires ParseLabel(link.text) == Some((link.filter, count))
    ensures HighlightedAsWritten(link, Click(st, link))
  {
    ParsedLabelContainsFilter(link.text, link.filter, count);
  }

  /** After a click, the clicked link is highlighted. */
  lemma ClickedLinkHighlighted(st: FilterState, filter: string, kind: Facet, count: int)
    ensures var link := CreateFilterLink(filter, kind, count);
            HighlightedAsWritten(link, Click(st, link))
  {
    var link := CreateFilterLink(filter, kind, count);
    CurrentLinkHighlighted(filter, kind, count, Click(st, link));
  }

  /** Highlighting is not exclusive: the link of any longer filter value
      ending in the current one, such as "Certified Used" for "Used", is
      highlighted as well. */
  lemma LongerFilterAlsoHighlighted(prefix: string, current: string, kind: Facet, count: int, st: FilterState)
    requires |prefix| > 0
    requires Current(st, kind) == current
    ensures var other := prefix + current;
            other != current && HighlightedAsWritten(CreateFilterLink(other, kind, count), st)
  {
    var other := prefix + current;
    var tail := " (" + IntToString(count) + ")";
    OccursInMiddle(prefix, current, tail);
    assert Label(other, count) == prefix + current + tail;
    assert |other| > |current|;
  }

  /** Highlighting is not exclusive: a filter value spelling a number
      highlights every link of its facet that shows that count. */
  lemma CountTextAlsoHighlighted(filter: string, kind: Facet, count: int, st: FilterState)
    requires Current(st, kind) == IntToString(count)
    ensures HighlightedAsWritten(CreateFilterLink(filter, kind, count), st)
  {
    var d := IntToString(count);
    OccursInMiddle(filter + " (", d, ")");
    assert Label(filter, count) == (filter + " (") + d + ")";
  }

  /** Corrected selection: a link is selected when the filter its click
      handler sets is the current filter of its facet. */
  predicate Selected(link: Link, st: FilterState)
  {
    link.filter == Current(st, link.kind)
  }

  /** Every link the corrected test selects is also highlighted as written. */
  lemma SelectedIsHighlighted(filter: string, kind: Facet, count: int, st: FilterState)
    ensures Selected(CreateFilterLink(filter, kind, count), st) ==>
              HighlightedAsWritten(CreateFilterLink(filter, kind, count), st)
  {
    if Selected(CreateFilterLink(filter, kind, count), st) {
      CurrentLinkHighlighted(filter, kind, count, st);
    }
  }

  /** Link `k` of the navbar belongs to the status facet exactly when it is
      among the first `|statusFilters|` links, and carries the filter at its
      position in its facet's list. */
  lemma NavbarLayout(statusFilters: seq<string>, vehicleStatusFilters: seq<string>,
                     statusCounts: map<string, int>, vehicleStatusCounts: map<string, int>, k: nat)
    requires k < |statusFilters| + |vehicleStatusFilters|
    ensures var link := GenerateNavbar(statusFilters, vehicleStatusFilters, statusCounts, vehicleStatusCounts)[k];
            if k < |statusFilters| then link.kind == StatusFacet && link.filter == statusFilters[k]
            else link.kind == VehicleStatusFacet && link.filter == vehicleStatusFilters[k - |statusFilters|]
  {
    var n := |statusFilters|;
    if k >= n {
      var links := GenerateNavbar(statusFilters, vehicleStatusFilters, statusCounts, vehicleStatusCounts);
      assert links[k] == links[n + (k - n)];
    }
  }

  /** With duplicate-free filter lists, after a click the corrected test
      selects exactly the clicked link among the links of its facet. */
  lemma SelectionExclusive(statusFilters: seq<string>, vehicleStatusFilters: seq<string>,
                           statusCounts: map<string, int>, vehicleStatusCounts: map<string, int>,
                           st: FilterState)
    requires NoDuplicates(statusFilters) && NoDuplicates(vehicleStatusFilters)
    ensures var links := GenerateNavbar(statusFilters, vehicleStatusFilters, statusCounts, vehicleStatusCounts);
            forall i, j :: 0 <= i < |links| && 0 <= j < |links| && links[i].kind == links[j].kind ==>
              (Selected(links[j], Click(st, links[i])) <==> i == j)
  {
    var links := GenerateNavbar(statusFilters, vehicleStatusFilters, statusCounts, vehicleStatusCounts);
    forall i, j | 0 <= i < |links| && 0 <= j < |links| && links[i].kind == links[j].kind
      ensures Selected(links[j], Click(st, links[i])) <==> i == j
    {
      NavbarLayout(statusFilters, vehicleStatusFilters, statusCounts, vehicleStatusCounts, i);
      NavbarLayout(statusFilters, vehicleStatusFilters, statusCounts, vehicleStatusCounts, j);
    }
  }

  /** Whatever navbar link is clicked, it is highlighted afterwards. */
  lemma NavbarClickHighlights(statusFilters: seq<string>, vehicleStatusFilters: seq<string>,
                              statusCounts: map<string, int>, vehicleStatusCounts: map<string, int>,
                              st: FilterState)
    ensures var links := GenerateNavbar(statusFilters, vehicleStatusFilters, statusCounts, vehicleStatusCounts);
            forall i :: 0 <= i < |links| ==> HighlightedAsWritten(links[i], Click(st, links[i]))
  {
    var links := GenerateNavbar(statusFilters, vehicleStatusFilters, statusCounts, vehicleStatusCounts);
    var n := |statusFilters|;
    forall i | 0 <= i < |links|
      ensures HighlightedAsWritten(links[i], Click(st, links[i]))
    {
      if i < n {
        ParsedLinkHighlighted(links[i], st, FilterCounts.DisplayCount(statusCounts, links[i].filter));
      } else {
        assert links[i] == links[n + (i - n)];
        ParsedLinkHighlighted(links[i], st, FilterCounts.DisplayCount(vehicleStatusCounts, links[i].filter));
      }
    }
  }
}

=== FILE: records.dfy ===
/** The two kinds of JSON object the script reads: the records of
    `data.json` and the items of `inventory.json`. Only the fields the script
    computes with are kept; the remaining fields are only displayed. */
module Records {

  /** A `Price` as found in the JSON: a number or a formatted string such as
      "$12,500.00". */
  datatype PriceField = Num(n: int) | Str(s: string)

  /** A record of `data.json`: its `Status`, its `Vehicle Status`, `Year` and `Price`. */
  datatype Record = Record(status: string, vehicleStatus: string, year: int, price: PriceField)

  /** An item of `inventory.json`: its `Year` and `Price`. */
  datatype Item = Item(year: int, price: PriceField)

  /** The two filter dimensions: the `Status` key (link type "status") and the
      `Vehicle Status` key (link type "vehicleStatus"). */
  datatype Facet = StatusFacet | VehicleStatusFacet

  /** `item[filterType]`. */
  function Field(r: Record, f: Facet): string
  {
    match f
    case StatusFacet => r.status
    case VehicleStatusFacet => r.vehicleStatus
  }

  /** `data.map((item) => item[filterType])`. */
  function Values(data: seq<Record>, f: Facet): (vs: seq<string>)
    ensures |vs| == |data|
    ensures forall i :: 0 <= i < |data| ==> vs[i] == Field(data[i], f)
  {
    seq(|data|, i requires 0 <= i < |data| => Field(data[i], f))
  }
}

=== FILE: seqs.dfy ===
/** Sequence operations that stand for the JavaScript array and string
    built-ins the script relies on: `filter`, `indexOf`, `includes` and the
    de-duplication done by `new Set(...)`. */
module Seqs {

  import opened Wrappers

  /** Number of occurrences of `x` in `s`. */
  function Occ<T(==)>(s: seq<T>, x: T): nat
  {
    multiset(s)[x]
  }

  /** `a` is an order-preserving sub-list of `b`. */
  predicate IsSubseq<T(==)>(a: seq<T>, b: seq<T>)
  {
    if |a| == 0 then true
    else if |b| == 0 then false
    else (a[0] == b[0] && IsSubseq(a[1..], b[1..])) || IsSubseq(a, b[1..])
  }

  /** `Array.prototype.filter`: keeps, in order, the elements satisfying `p`. */
  function Filter<T(==,!new)>(p: T -> bool, s: seq<T>): (r: seq<T>)
    ensures forall x :: x in r ==> p(x)
    ensures forall x :: Occ(r, x) == if p(x) then Occ(s, x) else 0
    ensures IsSubseq(r, s)
  {
    if |s| == 0 then []
    else
      assert s == [s[0]] + s[1..];
      if p(s[0]) then [s[0]] + Filter(p, s[1..]) else Filter(p, s[1..])
  }

  /** The elements of `s` all satisfy `p`, so filtering with `p` changes nothing. */
  lemma {:induction false} FilterAll<T(!new)>(p: T -> bool, s: seq<T>)
    requires forall i :: 0 <= i < |s| ==> p(s[i])
    ensures Filter(p, s) == s
  {
    if |s| > 0 {
      FilterAll(p, s[1..]);
    }
  }

  /** `Array.prototype.indexOf`: the first index of `x`, or -1 when absent. */
  function IndexOf<T(==)>(s: seq<T>, x: T): (r: int)
    ensures r == -1 <==> x !in s
    ensures r != -1 ==> 0 <= r < |s| && s[r] == x && x !in s[..r]
  {
    if |s| == 0 then -1
    else if s[0] == x then 0
    else
      var k := IndexOf(s[1..], x);
      if k == -1 then -1
      else
        assert s[..k + 1] == [s[0]] + s[1..][..k];
        k + 1
  }

  /** `s` holds no element twice. */
  predicate NoDuplicates<T(==)>(s: seq<T>)
  {
    forall i, j :: 0 <= i < j < |s| ==> s[i] != s[j]
  }

  /** The elements of `s`, each once, in the order of their first occurrence:
      the iteration order of `new Set(s)`. */
  function Distinct<T(==,!new)>(s: seq<T>): (d: seq<T>)
    ensures forall x :: x in d <==> x in s
    ensures NoDuplicates(d)
    ensures forall i, j :: 0 <= i < j < |d| ==> IndexOf(s, d[i]) < IndexOf(s, d[j])
  {
    if |s| == 0 then []
    else
      var p := s[..|s| - 1];
      var y := s[|s| - 1];
      var dp := Distinct(p);
      assert s == p + [y];
      IndexOfSnoc(p, y);
      if y in dp then dp else dp + [y]
  }

  /** An index holding `x` with no `x` before it is the one `IndexOf` finds. */
  lemma IndexOfIs<T>(s: seq<T>, x: T, i: nat)
    requires i < |s| && s[i] == x && x !in s[..i]
    ensures IndexOf(s, x) == i
  {
    var a := IndexOf(s, x);
    assert forall k :: 0 <= k < a ==> s[..a][k] == s[k];
    assert forall k :: 0 <= k < i ==> s[..i][k] == s[k];
  }

  /** Appending an element does not move the first occurrence of anything
      already present, and puts a new element's first occurrence at the end. */
  lemma IndexOfSnoc<T(!new)>(p: seq<T>, y: T)
    ensures forall x :: x in p ==> IndexOf(p + [y], x) == IndexOf(p, x)
    ensures y !in p ==> IndexOf(p + [y], y) == |p|
  {
    var s := p + [y];
    forall x | x in p
      ensures IndexOf(s, x) == IndexOf(p, x)
    {
      var b := IndexOf(p, x);
      assert s[..b] == p[..b];
      IndexOfIs(s, x, b);
    }
    if y !in p {
      assert s[..|p|] == p;
      IndexOfIs(s, y, |p|);
    }
  }

  /** The last index at which `x` occurs in `s`, if any. */
  function LastIndexOf<T(==)>(s: seq<T>, x: T): (r: Option<nat>)
    ensures r.None? <==> x !in s
    ensures r.Some? ==> r.value < |s| && s[r.value] == x && x !in s[r.value + 1..]
  {
    if |s| == 0 then None
    else if s[|s| - 1] == x then Some(|s| - 1)
    else
      var r := LastIndexOf(s[..|s| - 1], x);
      assert s == s[..|s| - 1] + [s[|s| - 1]];
      if r.Some? then
        assert s[r.value + 1..] == s[..|s| - 1][r.value + 1..] + [s[|s| - 1]];
        r
      else r
  }

  /** `String.prototype.includes`: `needle` occurs in `hay` as a contiguous
      substring (the empty string occurs in every string). */
  predicate Contains<T(==)>(hay: seq<T>, needle: seq<T>)
  {
    exists i | 0 <= i <= |hay| :: OccursAt(hay, needle, i)
  }

  /** `needle` occurs in `hay` starting at index `i`. */
  predicate OccursAt<T(==)>(hay: seq<T>, needle: seq<T>, i: int)
  {
    0 <= i <= |hay| - |needle| && hay[i..i + |needle|] == needle
  }

  /** The middle part of a concatenation is contained in it. */
  lemma OccursInMiddle<T>(a: seq<T>, b: seq<T>, c: seq<T>)
    ensures Contains(a + b + c, b)
  {
    assert (a + b + c)[|a|..|a| + |b|] == b;
    assert OccursAt(a + b + c, b, |a|);
  }
}

=== FILE: status_sort.dfy ===
/** `sortDataByStatus`: orders records by the position of their
    `Vehicle Status` in a fixed list, comparing with
    `statusOrder.indexOf(a) - statusOrder.indexOf(b)`. */
module StatusSort {

  import opened Seqs
  import opened Records

  /** The fixed order of vehicle statuses. */
  const StatusOrder: seq<string> := ["In Inventory", "Sold or Traded", "Never in Inventory"]

  /** `statusOrder.indexOf(r["Vehicle Status"])`: 0, 1 or 2 for a listed
      status and -1 for any other, so unlisted statuses rank before all listed ones. */
  function Rank(r: Record): (k: int)
    ensures -1 <= k < |StatusOrder|
    ensures k == -1 <==> r.vehicleStatus !in StatusOrder
    ensures k >= 0 ==> StatusOrder[k] == r.vehicleStatus
  {
    IndexOf(StatusOrder, r.vehicleStatus)
  }

  /** Keys never decrease from left to right. */
  predicate SortedBy<T>(key: T -> int, s: seq<T>)
  {
    forall i, j :: 0 <= i < j < |s| ==> key(s[i]) <= key(s[j])
  }

  /** Inserts `x` before the first element whose key is at least `key(x)`.
      Since each element is inserted into the already sorted rest of the
      list, it lands ahead of the later elements with equal key, so equal
      keys keep their relative order. */
  function Insert<T(==)>(key: T -> int, x: T, s: seq<T>): (r: seq<T>)
    requires SortedBy(key, s)
    ensures SortedBy(key, r)
    ensures multiset(r) == multiset(s) + multiset{x}
    ensures forall y :: y in r ==> y == x || y in s
  {
    if |s| == 0 then [x]
    else if key(x) <= key(s[0]) then [x] + s
    else
      var t := Insert(key, x, s[1..]);
      assert s == [s[0]] + s[1..];
      ConsSorted(key, s[0], t);
      [s[0]] + t
  }

  /** Putting an element in front of a sorted list whose keys are all at
      least its own keeps the list sorted. */
  lemma ConsSorted<T>(key: T -> int, h: T, t: seq<T>)
    requires SortedBy(key, t)
    requires forall y :: y in t ==> key(h) <= key(y)
    ensures SortedBy(key, [h] + t)
  {
  }

  /** A stable sort by `key`: insertion of each element into the sorted rest. */
  function SortBy<T(==)>(key: T -> int, s: seq<T>): (r: seq<T>)
    ensures multiset(r) == multiset(s)
    ensures SortedBy(key, r)
  {
    if |s| == 0 then []
    else
      assert s == [s[0]] + s[1..];
      Insert(key, s[0], SortBy(key, s[1..]))
  }

  /** `sortDataByStatus(data)`: a permutation of `data`, ordered by rank, with
      every record of unlisted status ahead of every listed one. */
  function SortByStatus(data: seq<Record>): (r: seq<Record>)
    ensures multiset(r) == multiset(data)
    ensures forall i, j :: 0 <= i < j < |r| ==> Rank(r[i]) <= Rank(r[j])
    ensures forall i, j :: 0 <= i < j < |r| && Rank(r[j]) == -1 ==> Rank(r[i]) == -1
  {
    SortBy(Rank, data)
  }

  /** A stable sort leaves an already ordered list as it is. */
  lemma {:induction false} SortSortedIsIdentity<T>(key: T -> int, s: seq<T>)
    requires SortedBy(key, s)
    ensures SortBy(key, s) == s
  {
    if |s| > 0 {
      var t := s[1..];
      assert SortedBy(key, t);
      SortSortedIsIdentity(key, t);
      assert SortBy(key, s) == Insert(key, s[0], t);
      if |t| > 0 {
        assert key(s[0]) <= key(t[0]);
      }
      assert s == [s[0]] + t;
    }
  }

  /** Sorting the data twice is the same as sorting it once. */
  lemma SortIdempotent(data: seq<Record>)
    ensures SortByStatus(SortByStatus(data)) == SortByStatus(data)
  {
    SortSortedIsIdentity(Rank, SortByStatus(data));
  }
}

=== FILE: wrappers.dfy ===
/** Optional values: `None` stands for JavaScript's `undefined`/`NaN` wherever the
    script can produce one. */
module Wrappers {

  datatype Option<+T> = None | Some(value: T)
}
